=== FILE: README.md ===
# DRS phase sequencer

A model of the core of the `DRSSimulation` component (`src/App.tsx`). It is a teaching
simulation of VMware's Distributed Resource Scheduler on a lab cluster of three ESXi hosts and twelve
virtual machines. The user triggers the simulation from the vCenter view's context menu.
`triggerLoadSpike` switches the view and, 1500 ms later, starts `runDRSSequence`. That
sequence walks a fixed chain of seven phases and stages the load spike on ESXi-02 itself:

BALANCED → LOAD_SPIKE → CALCULATING → MIGRATING_PHASE_1 → ANALYZING_PHASE_2 →
MIGRATING_PHASE_2 → OPTIMIZED

What each phase writes:
- BALANCED (phase 0) only prepends the two opening lines to the log. It sets no status and touches no host or VM.
- Every later phase sets the status panel's title and message and prepends its narrative lines to the log.
- LOAD_SPIKE writes literal CPU/memory percentages into host h2.
- The two MIGRATING phases move named VMs to other hosts (vMotion) and rebuild all three hosts' percentages.
- CALCULATING, ANALYZING_PHASE_2 and OPTIMIZED change no host and no VM.

`resetSimulation` restores the phase, the hosts and the VMs of the mounted component and empties the log. It writes its
own status message ("...umbrales normales."), which differs from the one shown at mount ("...umbrales normales de
desviación.").

The project has four modules:

- `Cluster` (`cluster.dfy`) holds the resource model and its rewrites.
  - The datatypes are `Host`, `Vm`, `Usage` and `Move`, plus the host and VM lists written at mount and, spelled out separately as in the source, at reset.
  - There are three rewrites: the by-id `prev.map` rewrite of a host, the positional rebuild of the host list from `prev[0..2]`, and the by-id `prev.map` rewrite of a VM.
  - `ApplyMoves` composes several vMotions.
  - `PositionalIsById` shows the positional rebuild equals three by-id updates on a list ordered h1, h2, h3. `PositionalNeedsOrder` exhibits a swapped list on which it does not.
- `Sequencer` (`sequencer.dfy`) is the sequencer as values.
  - `Phase` is the chain, with `Index`, `PhaseAt` and `Next`.
  - The phase table `Script` gives, per phase, its dwell, host patch, vMotions, status and log lines; `Enter` applies one row.
  - `Sim` is the observable state.
  - `AfterStart`, `AfterStep` and `AfterReset` are the pure effects of the three commands. `Steps` and `Run` iterate them.
  - `IsBalancing` and `ResetVisible` are two of the three view predicates of the rendering code: the "BALANCEANDO..." badge and the reset button. The third, the high-load frame, is `Cluster.IsHighLoad`.
- `SequencerFacts` (`properties.dfy`) holds the properties:
  - the invariant of the resource model;
  - the chain order;
  - what each phase's patch does;
  - the scenario checks (after LOAD_SPIKE, MIGRATING_PHASE_1, MIGRATING_PHASE_2 and in OPTIMIZED);
  - the status shown in each phase of a walk;
  - the exact newest-first log of a full walk;
  - what a reset restores.
- `Simulation` (`simulation.dfy`) is the component as an object.
  - Class `DrsSimulation` keeps the state the source keeps in React state: the phase, the hosts, the VMs, the log and the status.
  - `Start`, `Step` and `Reset` overwrite that state step by step, as the setters do.
  - Each method is proved against the pure function: `Snapshot() == AfterX(old(Snapshot()))`, and it keeps `Valid()`.
  - `Migrate` and `AddLogs` are loops that apply one `prev.map` or one `addLog` per iteration.

Representation choices:

- Log lines and status panels are enumerations (`Line`, `Status`). `Text`, `Title` and `Message` give their exact Spanish wording, as written in `src/App.tsx`. A log is a `seq<Line>`, newest first. `Rendered` turns it into the list of message strings the view shows.
- Each `await delay(...)` becomes one call of `Step`. A `running` flag records that a walk is in progress. `Start` sets it, OPTIMIZED and `Reset` clear it.
- `Start` is a no-op unless the sequencer is idle in BALANCED. `src/App.tsx:91-95` has no such guard, but the trigger lives in the vCenter view's context menu, and `triggerLoadSpike` leaves that view at once.
- `Reset` also clears `running`, so a dwell still pending after a reset changes nothing. The source cannot cancel its pending `await`s. Its reset button is shown only in OPTIMIZED, after the last one (`ResetShownOnlyWhenDone`).

## Model

| member | source | states |
|---|---|---|
| Cluster.InitialLayout | src/App.tsx:48-72 | hosts h1, h2, h3 in that order at 30/40, 35/45, 50/60 with capacity 100; vm1-vm4 on h1, vm5-vm7 on h2, vm8-vm12 on h3, with the VMs listed in id order vm1 to vm12 |
| Cluster.InitialHosts | src/App.tsx:48-52 | the three hosts the component is mounted with: ids, names, addresses, usages and capacities as written |
| Cluster.InitialVms | src/App.tsx:54-72 | the twelve VMs the component is mounted with: ids, names, hosts, loads and sizes as written |
| Cluster.ResetHosts | src/App.tsx:203-207 | the host list `resetSimulation` writes, as written there |
| Cluster.ResetVms | src/App.tsx:209-222 | the VM list `resetSimulation` writes, as written there |
| Cluster.ResetListsAreInitial | src/App.tsx:203-222 | the host and VM lists `resetSimulation` writes are exactly the lists the component is mounted with |
| Cluster.SetUsageById | src/App.tsx:108-110 | the host with the given id gets the new cpu/mem, every other host is returned unchanged, and every host keeps its id, name, ip and capacity |
| Cluster.RebuildByPosition | src/App.tsx:139-143 | entry i of the rebuilt list is `prev[i]` with the i-th target usage, identity fields kept, whatever host `prev[i]` is |
| Cluster.MoveVm | src/App.tsx:134 | the VM with the given id gets the new host, every other VM is returned unchanged, and every VM keeps its id, name, load and size |
| Cluster.FinalHost | src/App.tsx:134-173 | the host a VM sits on after a series of vMotions: the target of the last move naming it, else where it was |
| Cluster.ApplyMoves | src/App.tsx:134-136 | after several vMotions in order, each VM sits where the last move naming it put it (`FinalHost`), and all identity fields are kept |
| Cluster.ApplyMovesKeepsValid | src/App.tsx:169-173 | moves whose targets are h1, h2 or h3 keep twelve VMs, all on known hosts |
| Cluster.PositionalIsById | src/App.tsx:176-180 | on a host list ordered h1, h2, h3, the positional rebuild equals three by-id updates: the ordering the source relies on is sufficient |
| Cluster.PositionalNeedsOrder | src/App.tsx:139-141 | with h1 and h2 swapped, the rebuild gives h2 the usage meant for h1: the ordering is necessary |
| Cluster.IsHighLoad | src/App.tsx:414 | a host panel gets the red high-load frame exactly when its memory use is above 80% |
| Sequencer.Index | src/App.tsx:9-16 | each phase has a position in the chain below 7; position 0 is exactly BALANCED and 6 exactly OPTIMIZED |
| Sequencer.PhaseAt | src/App.tsx:9-16 | the phase at a position has that position |
| Sequencer.Next | src/App.tsx:104-189 | the phase after a non-final phase is the one at the next position of the chain |
| Sequencer.Name | src/App.tsx:9-16 | the `DRSState` string of each phase |
| Sequencer.Title | src/App.tsx:44-200 | the status title of each status panel the component can show, word for word: the mounted one, one per phase from LOAD_SPIKE on, and the reset one |
| Sequencer.Message | src/App.tsx:45-201 | the status message of each status panel, word for word; the mounted message and the reset message differ |
| Sequencer.Text | src/App.tsx:99-193 | the wording of each of the 19 narrative log lines, word for word |
| Sequencer.Script | src/App.tsx:97-193 | the table row of a phase: its dwell, host patch, vMotions, status and log lines |
| Sequencer.DwellOf | src/App.tsx:87-186 | the milliseconds waited before each row applies: 1500 before the sequence starts, then 4000, 7000, 7000, 8000, 8000, 8000 |
| Sequencer.HostPatchOf | src/App.tsx:108-180 | the host rewrite of each phase: h2 by id to 92/95 in LOAD_SPIKE, the positional rebuilds of the two migration phases, none elsewhere |
| Sequencer.MovesOf | src/App.tsx:134-173 | the vMotions of each phase, in source order: vm5 to h1 and vm7 to h3, then vm8, vm9 and vm1 to h2, none elsewhere |
| Sequencer.StatusOf | src/App.tsx:104-191 | the status each phase writes; BALANCED writes none |
| Sequencer.LinesOf | src/App.tsx:99-193 | the log lines each phase writes, in the order `addLog` is called |
| Sequencer.Initial | src/App.tsx:40-72 | the mount state: BALANCED, no walk, the mount hosts and VMs, an empty log and the mount status |
| Sequencer.ApplyHostPatch | src/App.tsx:108-180 | a host patch applied to the host list: unchanged, one host rewritten by id, or the list rebuilt by position |
| Sequencer.Enter | src/App.tsx:97-193 | one phase block: the phase is set, the walk stays in progress unless the phase is OPTIMIZED, the row's host patch and vMotions apply, its lines go in front of the log newest first, and its status replaces the old one where it writes one |
| Sequencer.AfterStart | src/App.tsx:91-101 | `start`: from an idle BALANCED state the walk begins with the BALANCED row; from any other state nothing changes |
| Sequencer.AfterStep | src/App.tsx:101-193 | one `await delay` and the phase block after it: a walk in progress enters the next phase; any other state is unchanged |
| Sequencer.AfterReset | src/App.tsx:196-223 | `resetSimulation`: BALANCED, no walk, the reset host and VM lists, an empty log and the reset status, whatever the state before |
| Sequencer.Steps | src/App.tsx:101-193 | the state after k elapsed dwells |
| Sequencer.Run | src/App.tsx:91-193 | the state after `start` and k elapsed dwells |
| Sequencer.Prepended | src/App.tsx:82-85 | `addLog`: the new entry is at index 0, the old log follows it unchanged, and the length grows by one |
| Sequencer.PrependedAll | src/App.tsx:99-100 | `addLog` once per line leaves the lines in reverse order in front of the old log |
| Sequencer.Rendered | src/App.tsx:493 | the shown log has one message string per entry, each the wording of that entry |
| Sequencer.ResetVisible | src/App.tsx:371 | the reset button is shown exactly in OPTIMIZED |
| Sequencer.ContainsFrom | src/App.tsx:379 | `includes`: the pattern occurs in the string at some position from the given one on |
| Sequencer.IsBalancing | src/App.tsx:379 | the "BALANCEANDO..." badge is shown exactly when the phase name contains MIGRATING or ANALYZING |
| SequencerFacts.InitialValid | src/App.tsx:40-72 | the initial state satisfies the invariant: hosts ordered h1, h2, h3 with percentages in [0,100], twelve VMs on known hosts, and a walk in progress (there is none at mount) never in OPTIMIZED |
| SequencerFacts.PatchKeepsValidHosts | src/App.tsx:139-143 | every phase's host patch keeps the host identities, their order and percentages in [0,100] |
| SequencerFacts.EnterKeepsValid | src/App.tsx:97-194 | applying any phase's row keeps the invariant |
| SequencerFacts.StartKeepsValid | src/App.tsx:91-101 | `start` keeps the invariant |
| SequencerFacts.StepKeepsValid | src/App.tsx:101-193 | one elapsed dwell keeps the invariant |
| SequencerFacts.ResetKeepsValid | src/App.tsx:196-223 | a reset from any state lands in a state that satisfies the invariant |
| SequencerFacts.StepsKeepValid | src/App.tsx:97-194 | any number of dwells keep the invariant, with 12 VMs and 3 hosts |
| SequencerFacts.StepAdvancesOne | src/App.tsx:101-189 | a dwell moves a walk in progress exactly one position along the chain and leaves an idle state alone; the walk stays in progress until OPTIMIZED |
| SequencerFacts.StepsWalkChain | src/App.tsx:104-189 | from a running state, k dwells reach position min(start + k, 6), and the walk is still in progress exactly when that is below 6 |
| SequencerFacts.RunVisitsChain | src/App.tsx:97-194 | after start and k dwells the phase is the k-th of the chain (no skip, no repeat); from the sixth dwell on nothing changes |
| SequencerFacts.StartOnlyWhenIdle | src/App.tsx:91-100 | start from an idle BALANCED state writes the two opening lines and changes no host, VM or status; in any other state it does nothing |
| SequencerFacts.LoadSpikePatch | src/App.tsx:104-113 | LOAD_SPIKE sets h2 to 92/95 and leaves h1, h3 and every VM as they were |
| SequencerFacts.NarrativePhasesKeepModel | src/App.tsx:117-193 | CALCULATING, ANALYZING_PHASE_2 and OPTIMIZED change no host and no VM and add log entries |
| SequencerFacts.MigratingPhase1Patch | src/App.tsx:129-146 | MIGRATING_PHASE_1 moves exactly vm5 to h1 and vm7 to h3 and sets the hosts to 60/70, 40/45, 75/80, keeping every identity |
| SequencerFacts.MigratingPhase2Patch | src/App.tsx:164-184 | MIGRATING_PHASE_2 moves exactly vm8, vm9 and vm1 to h2 and sets the hosts to 55/60, 58/62, 55/58, keeping every identity |
| SequencerFacts.RunStep | src/App.tsx:97-194 | dwell k+1 of a walk applies the row of the phase after the k-th one |
| SequencerFacts.RunValid | src/App.tsx:97-194 | every state of a walk from a valid idle state satisfies the invariant |
| SequencerFacts.AfterLoadSpikeOnlyH2High | src/App.tsx:108-110 | after LOAD_SPIKE on the initial hosts, h2 is at 92/95 and is the only host drawn as high-load (memory above 80%, line 414) |
| SequencerFacts.FreshWalkReachesSpike | src/App.tsx:91-113 | `start` from the mount state gives a valid walk in BALANCED on the mount hosts, and after the first dwell the state is LOAD_SPIKE with h2 at 92/95 as the only high-load host |
| SequencerFacts.AfterMigration1NoneHigh | src/App.tsx:139-143 | after MIGRATING_PHASE_1 h2's memory is 45%, h3's is exactly 80%, and no host is drawn as high-load (line 414) |
| SequencerFacts.AfterMigration1Placement | src/App.tsx:133-136 | after MIGRATING_PHASE_1 SQL-PROD runs on h1 and SAP-Core on h3 |
| SequencerFacts.AfterMigration2InBand | src/App.tsx:176-191 | after MIGRATING_PHASE_2 every host's CPU and memory lie in the 55-65% band the OPTIMIZED message claims |
| SequencerFacts.AfterMigration2Placement | src/App.tsx:168-173 | after MIGRATING_PHASE_2 App-01, App-02 and Web-01 run on h2 |
| SequencerFacts.OptimizedInBand | src/App.tsx:189-193 | at the end of a walk the phase is OPTIMIZED, no dwell is pending, the hosts and VMs are those of MIGRATING_PHASE_2, and every host's CPU and memory lie in the 55-65% band the OPTIMIZED message claims |
| SequencerFacts.RunStatus | src/App.tsx:104-191 | in each phase of a walk after BALANCED the status panel shows that phase's title and message; in BALANCED it still shows what it showed at `start` |
| SequencerFacts.StepPrepends | src/App.tsx:82-85 | a dwell only puts entries in front of the log; the older entries stay at the back unchanged |
| SequencerFacts.RunJournal | src/App.tsx:99-193 | during a walk the log is exactly the walk's own entries, newest first, in front of the log at start |
| SequencerFacts.FullJournal | src/App.tsx:99-193 | the entries of a full walk, newest first, from the end banner back to the start banner |
| SequencerFacts.FullRunLog | src/App.tsx:99-193 | a full walk adds exactly 19 entries, the newest is the end banner, the oldest of them the start banner, and the earlier log follows unchanged |
| SequencerFacts.ResetRestores | src/App.tsx:196-223 | reset from any state gives BALANCED, no walk, an empty log, hosts and VMs equal to the mount lists, and the reset status, whose title equals the initial one and whose message differs from it |
| SequencerFacts.NoStaleStepAfterReset | src/App.tsx:196-223 | after a reset, any number of elapsed dwells change nothing |
| SequencerFacts.RunAfterResetReplays | src/App.tsx:196-223 | a walk started after a reset is the walk of a fresh component, except for the status message in BALANCED |
| SequencerFacts.ResetShownOnlyWhenDone | src/App.tsx:371 | during a walk the reset button appears exactly from the sixth dwell on, when no dwell is pending |
| SequencerFacts.BalancingPhases | src/App.tsx:379 | the balancing badge shows exactly in MIGRATING_PHASE_1, ANALYZING_PHASE_2 and MIGRATING_PHASE_2 |
| Simulation.DrsSimulation.constructor | src/App.tsx:40-72 | the component mounts in the initial state, which satisfies the invariant |
| Simulation.DrsSimulation.AddLog | src/App.tsx:82-85 | the log becomes the entry in front of the old log |
| Simulation.DrsSimulation.AddLogs | src/App.tsx:99-100 | successive `addLog` calls leave the log as `PrependedAll` of the old log |
| Simulation.DrsSimulation.Migrate | src/App.tsx:134-136 | successive `setVms(prev => prev.map(...))` calls leave the VMs as `ApplyMoves` of the old list |
| Simulation.DrsSimulation.Announce | src/App.tsx:104-106 | `setDrsState` and, where the phase has one, `setStatusTitle`/`setStatusMessage` |
| Simulation.DrsSimulation.Apply | src/App.tsx:128-146 | writing one phase's state, status, VMs, hosts and log lines field by field gives `Enter` of the old state |
| Simulation.DrsSimulation.Start | src/App.tsx:91-101 | the object moves as `AfterStart` says and keeps the invariant |
| Simulation.DrsSimulation.Step | src/App.tsx:101-193 | the object moves as `AfterStep` says and keeps the invariant |
| Simulation.DrsSimulation.Reset | src/App.tsx:196-223 | the object moves as `AfterReset` says and keeps the invariant |
| Simulation.Session | src/App.tsx:40-223 | usage example: an object mounted, started and left for six dwells ends in `Run(Initial(), 6)`, OPTIMIZED with no dwell pending; a reset then gives an empty log and the mount hosts and VMs |

## Left out

- Timers and asynchrony. The model does not run `delay`, `setTimeout` or `await`. Each elapsed wait is one `Step`. The waits' durations, including the 1500 ms before the sequence starts, are kept only as the data `DwellOf`.
- Interleavings of a pending dwell with user commands. The model's `Start` guard and `Reset`'s clearing of `running` leave none, while the source would let a stale dwell write after a reset.
- The timestamp `addLog` puts in front of each message. A log entry is its message only.
- The view mode (`VCENTER_UI` / `INFRASTRUCTURE`), the context menu, the scroll effect and all rendering. The model keeps only three display predicates: high load, balancing badge and reset button.
- The colour of a log line chosen by substring match, and the static dashboard figures. Both are display only.
- Sequencer.ApplyHostPatch: a positional patch with more targets than hosts leaves the hosts unchanged. The source always has three hosts and three targets, so that case never arises.
- The pairwise distinctness of the 19 log texts is not proved: checking the long literals against each other is too costly for the solver. `Text` gives each entry's exact wording, and the log is kept as the sequence of entries.

=== FILE: cluster.dfy ===
/** The resource model of the DRS lab: three hosts, twelve virtual machines, and the
    two kinds of rewrite the sequencer applies to them (src/App.tsx:20-72, 108-180). */
module Cluster {

  /** Display class of a VM; `Large` VMs are flagged as heavy workloads. */
  datatype Size = Small | Large

  /** A simulated ESXi host. `id`, `name`, `ip` and `capacity` never change during a run;
      the usage percentages are overwritten with literal values by the phases. */
  datatype Host = Host(id: string, name: string, ip: string, cpuUsage: int, memUsage: int, capacity: int)

  /** A virtual machine; `hostId` is a foreign key into the host list. */
  datatype Vm = Vm(id: string, name: string, hostId: string, load: int, size: Size)

  /** A literal CPU/memory target written into one host. */
  datatype Usage = Usage(cpu: int, mem: int)

  /** One vMotion: put the VM called `vmId` on the host called `toHost`. */
  datatype Move = Move(vmId: string, toHost: string)

  /** The host identifiers, in the order the host list keeps them. */
  const HostIds: seq<string> := ["h1", "h2", "h3"]

  /** The host list the component is mounted with. */
  function InitialHosts(): seq<Host>
  {
    [ Host("h1", "ESXi-01", "192.168.10.5", 30, 40, 100),
      Host("h2", "ESXi-02", "192.168.10.6", 35, 45, 100),
      Host("h3", "ESXi-03", "192.168.10.7", 50, 60, 100) ]
  }

  /** The VM list the component is mounted with. */
  function InitialVms(): seq<Vm>
  {
    [ Vm("vm1", "Web-01", "h1", 10, Small),
      Vm("vm2", "Web-02", "h1", 10, Small),
      Vm("vm3", "DNS-01", "h1", 5, Small),
      Vm("vm4", "NTP-01", "h1", 5, Small),
      Vm("vm5", "SQL-PROD", "h2", 15, Large),
      Vm("vm6", "ORA-DB", "h2", 15, Large),
      Vm("vm7", "SAP-Core", "h2", 15, Large),
      Vm("vm8", "App-01", "h3", 12, Small),
      Vm("vm9", "App-02", "h3", 12, Small),
      Vm("vm10", "Mail-01", "h3", 12, Small),
      Vm("vm11", "Print", "h3", 8, Small),
      Vm("vm12", "File", "h3", 15, Large) ]
  }

  /** The host list `resetSimulation` writes, spelled out again in the source. */
  function ResetHosts(): seq<Host>
  {
    [ Host("h1", "ESXi-01", "192.168.10.5", 30, 40, 100),
      Host("h2", "ESXi-02", "192.168.10.6", 35, 45, 100),
      Host("h3", "ESXi-03", "192.168.10.7", 50, 60, 100) ]
  }

  /** The VM list `resetSimulation` writes, spelled out again in the source. */
  function ResetVms(): seq<Vm>
  {
    [ Vm("vm1", "Web-01", "h1", 10, Small),
      Vm("vm2", "Web-02", "h1", 10, Small),
      Vm("vm3", "DNS-01", "h1", 5, Small),
      Vm("vm4", "NTP-01", "h1", 5, Small),
      Vm("vm5", "SQL-PROD", "h2", 15, Large),
      Vm("vm6", "ORA-DB", "h2", 15, Large),
      Vm("vm7", "SAP-Core", "h2", 15, Large),
      Vm("vm8", "App-01", "h3", 12, Small),
      Vm("vm9", "App-02", "h3", 12, Small),
      Vm("vm10", "Mail-01", "h3", 12, Small),
      Vm("vm11", "Print", "h3", 8, Small),
      Vm("vm12", "File", "h3", 15, Large) ]
  }

  /** The lists a reset writes are the lists the component is mounted with. */
  lemma ResetListsAreInitial()
    ensures ResetHosts() == InitialHosts() && ResetVms() == InitialVms()
  {
  }

  /** The initial layout: h1, h2, h3 at 30/40, 35/45 and 50/60 with capacity 100;
      vm1-vm4 on h1, vm5-vm7 on h2 and vm8-vm12 on h3. */
  lemma InitialLayout()
    ensures |InitialHosts()| == 3 && HostsOrdered(InitialHosts())
    ensures forall i :: 0 <= i < 3 ==> InitialHosts()[i].capacity == 100
    ensures InitialHosts()[0].cpuUsage == 30 && InitialHosts()[0].memUsage == 40
    ensures InitialHosts()[1].cpuUsage == 35 && InitialHosts()[1].memUsage == 45
    ensures InitialHosts()[2].cpuUsage == 50 && InitialHosts()[2].memUsage == 60
    ensures |InitialVms()| == 12
    ensures forall i :: 0 <= i < 12 ==>
              InitialVms()[i].hostId == (if i < 4 then "h1" else if i < 7 then "h2" else "h3")
    ensures forall i :: 0 <= i < 12 ==>
              InitialVms()[i].id == ["vm1", "vm2", "vm3", "vm4", "vm5", "vm6", "vm7", "vm8", "vm9", "vm10", "vm11", "vm12"][i]
  {
  }

  /** Where the VMs the migrations name sit in the list, and what they are called. */
  lemma MigratedVmsAt(vms: seq<Vm>)
    requires SameVms(vms, InitialVms())
    ensures vms[0].id == "vm1" && vms[0].name == "Web-01"
    ensures vms[4].id == "vm5" && vms[4].name == "SQL-PROD"
    ensures vms[6].id == "vm7" && vms[6].name == "SAP-Core"
    ensures vms[7].id == "vm8" && vms[7].name == "App-01"
    ensures vms[8].id == "vm9" && vms[8].name == "App-02"
  {
    assert SameVm(vms[0], InitialVms()[0]) && SameVm(vms[4], InitialVms()[4]) && SameVm(vms[6], InitialVms()[6]);
    assert SameVm(vms[7], InitialVms()[7]) && SameVm(vms[8], InitialVms()[8]);
  }

  /** The red "high load" frame of a host panel. */
  predicate IsHighLoad(h: Host)
  {
    h.memUsage > 80
  }

  predicate IsPercentage(v: int)
  {
    0 <= v <= 100
  }

  /** `a` and `b` are the same host, whatever their usage. */
  predicate SameHost(a: Host, b: Host)
  {
    a.id == b.id && a.name == b.name && a.ip == b.ip && a.capacity == b.capacity
  }

  /** `a` and `b` are the same VM, wherever it runs. */
  predicate SameVm(a: Vm, b: Vm)
  {
    a.id == b.id && a.name == b.name && a.load == b.load && a.size == b.size
  }

  predicate SameHosts(a: seq<Host>, b: seq<Host>)
  {
    |a| == |b| && forall i :: 0 <= i < |a| ==> SameHost(a[i], b[i])
  }

  predicate SameVms(a: seq<Vm>, b: seq<Vm>)
  {
    |a| == |b| && forall i :: 0 <= i < |a| ==> SameVm(a[i], b[i])
  }

  /** The host list is h1, h2, h3 in this order: the positional rebuilds rely on it. */
  predicate HostsOrdered(hosts: seq<Host>)
  {
    |hosts| == |HostIds| && forall i :: 0 <= i < |hosts| ==> hosts[i].id == HostIds[i]
  }

  /** The hosts of the lab, in their initial order, with percentages in [0,100]. */
  predicate ValidHosts(hosts: seq<Host>)
  {
    SameHosts(hosts, InitialHosts()) &&
    forall i :: 0 <= i < |hosts| ==> IsPercentage(hosts[i].cpuUsage) && IsPercentage(hosts[i].memUsage)
  }

  /** The twelve VMs of the lab, in their initial order, each on a known host. */
  predicate ValidVms(vms: seq<Vm>)
  {
    SameVms(vms, InitialVms()) &&
    forall i :: 0 <= i < |vms| ==> vms[i].hostId in HostIds
  }

  /** The `prev.map` rewrite of the host list: the host called `id` gets usage `u`,
      every other host is kept as it is. */
  function SetUsageById(hosts: seq<Host>, id: string, u: Usage): (r: seq<Host>)
    ensures SameHosts(r, hosts)
    ensures forall i :: 0 <= i < |hosts| ==>
              if hosts[i].id == id then r[i].cpuUsage == u.cpu && r[i].memUsage == u.mem
              else r[i] == hosts[i]
  {
    if hosts == [] then []
    else
      var h := hosts[0];
      [if h.id == id then h.(cpuUsage := u.cpu, memUsage := u.mem) else h] + SetUsageById(hosts[1..], id, u)
  }

  /** The spread-based rebuild of the host list: entry `i` of the result is `prev[i]` with
      usage `targets[i]`, whatever host `prev[i]` happens to be. */
  function RebuildByPosition(prev: seq<Host>, targets: seq<Usage>): (r: seq<Host>)
    requires |targets| <= |prev|
    ensures SameHosts(r, prev[..|targets|])
    ensures forall i :: 0 <= i < |targets| ==>
              r[i].cpuUsage == targets[i].cpu && r[i].memUsage == targets[i].mem
  {
    if targets == [] then []
    else [prev[0].(cpuUsage := targets[0].cpu, memUsage := targets[0].mem)]
         + RebuildByPosition(prev[1..], targets[1..])
  }

  /** The `prev.map` rewrite of the VM list for one vMotion: the VM called `m.vmId`
      moves to `m.toHost`, every other VM is kept as it is. */
  function MoveVm(vms: seq<Vm>, m: Move): (r: seq<Vm>)
    ensures SameVms(r, vms)
    ensures forall i :: 0 <= i < |vms| ==>
              if vms[i].id == m.vmId then r[i].hostId == m.toHost else r[i] == vms[i]
  {
    if vms == [] then []
    else
      var v := vms[0];
      [if v.id == m.vmId then v.(hostId := m.toHost) else v] + MoveVm(vms[1..], m)
  }

  /** Where a VM called `id`, now on `current`, ends up after `moves` run in order. */
  function FinalHost(moves: seq<Move>, id: string, current: string): string
  {
    if moves == [] then current
    else if moves[|moves| - 1].vmId == id then moves[|moves| - 1].toHost
    else FinalHost(moves[..|moves| - 1], id, current)
  }

  /** The last move that names a VM decides where it ends up. */
  lemma FinalHostOfTwo(m0: Move, m1: Move, id: string, current: string)
    ensures FinalHost([m0, m1], id, current) ==
            if m1.vmId == id then m1.toHost else if m0.vmId == id then m0.toHost else current
  {
    assert [m0, m1][..1] == [m0];
    assert [m0][..0] == [];
    assert FinalHost([m0], id, current) == if m0.vmId == id then m0.toHost else current;
  }

  lemma FinalHostOfThree(m0: Move, m1: Move, m2: Move, id: string, current: string)
    ensures FinalHost([m0, m1, m2], id, current) ==
            if m2.vmId == id then m2.toHost else FinalHost([m0, m1], id, current)
  {
    assert [m0, m1, m2][..2] == [m0, m1];
  }

  /** Several vMotions, applied one after the other. */
  function ApplyMoves(vms: seq<Vm>, moves: seq<Move>): (r: seq<Vm>)
    ensures SameVms(r, vms)
    ensures forall i :: 0 <= i < |vms| ==> r[i].hostId == FinalHost(moves, vms[i].id, vms[i].hostId)
  {
    if moves == [] then vms
    else MoveVm(ApplyMoves(vms, moves[..|moves| - 1]), moves[|moves| - 1])
  }

  /** Moving a VM somewhere other than a known host is the only way to break `ValidVms`. */
  lemma {:induction false} ApplyMovesKeepsValid(vms: seq<Vm>, moves: seq<Move>)
    requires ValidVms(vms)
    requires forall j :: 0 <= j < |moves| ==> moves[j].toHost in HostIds
    ensures ValidVms(ApplyMoves(vms, moves))
  {
    var r := ApplyMoves(vms, moves);
    forall i | 0 <= i < |r| ensures r[i].hostId in HostIds {
      FinalHostKnown(moves, vms[i].id, vms[i].hostId);
    }
  }

  lemma {:induction false} FinalHostKnown(moves: seq<Move>, id: string, current: string)
    requires current in HostIds
    requires forall j :: 0 <= j < |moves| ==> moves[j].toHost in HostIds
    ensures FinalHost(moves, id, current) in HostIds
  {
    if moves != [] && moves[|moves| - 1].vmId != id {
      FinalHostKnown(moves[..|moves| - 1], id, current);
    }
  }

  /** On a host list in the order h1, h2, h3, the positional rebuild writes exactly what
      three by-id updates would: this is the ordering the source silently relies on. */
  lemma PositionalIsById(prev: seq<Host>, targets: seq<Usage>)
    requires HostsOrdered(prev) && |targets| == 3
    ensures RebuildByPosition(prev, targets) ==
            SetUsageById(SetUsageById(SetUsageById(prev, "h1", targets[0]), "h2", targets[1]), "h3", targets[2])
  {
    var a := RebuildByPosition(prev, targets);
    var b := SetUsageById(SetUsageById(SetUsageById(prev, "h1", targets[0]), "h2", targets[1]), "h3", targets[2]);
    assert |a| == |b| == 3;
    forall i | 0 <= i < 3 ensures a[i] == b[i] {
      assert prev[i].id == HostIds[i];
    }
  }

  /** Without that order the rebuild goes wrong: with h1 and h2 swapped, h2 gets the
      targets meant for h1. */
  lemma PositionalNeedsOrder()
    ensures var swapped := [InitialHosts()[1], InitialHosts()[0], InitialHosts()[2]];
            var r := RebuildByPosition(swapped, [Usage(60, 70), Usage(40, 45), Usage(75, 80)]);
            r[0].id == "h2" && r[0].cpuUsage == 60 && r[0].memUsage == 70
  {
  }
}

=== FILE: properties.dfy ===
/** What the sequence promises: the chain order, the invariant of the resource model,
    each phase's patch, the newest-first log, and what a reset restores. */
module SequencerFacts {
  import opened Cluster
  import opened Sequencer

  function Min(a: nat, b: nat): nat
  {
    if a < b then a else b
  }

  /** An idle state from which `start` begins a walk: the initial one, or one after a reset. */
  predicate Idle(s: Sim)
  {
    s.phase == Balanced && !s.running
  }

  // ---------------------------------------------------------------- invariant

  lemma PatchKeepsValidHosts(hosts: seq<Host>, p: Phase)
    requires ValidHosts(hosts)
    ensures ValidHosts(ApplyHostPatch(hosts, HostPatchOf(p)))
  {
    if HostPatchOf(p).Positional? {
      assert hosts[..|HostPatchOf(p).targets|] == hosts;
    }
  }

  lemma EnterKeepsValid(s: Sim, p: Phase)
    requires Valid(s)
    ensures Valid(Enter(s, p))
  {
    ApplyMovesKeepsValid(s.vms, MovesOf(p));
    PatchKeepsValidHosts(s.hosts, p);
  }

  lemma StartKeepsValid(s: Sim)
    requires Valid(s)
    ensures Valid(AfterStart(s))
  {
    EnterKeepsValid(s, Balanced);
  }

  lemma StepKeepsValid(s: Sim)
    requires Valid(s)
    ensures Valid(AfterStep(s))
  {
    if s.running && s.phase != Optimized {
      EnterKeepsValid(s, Next(s.phase));
    }
  }

  lemma InitialValid()
    ensures Valid(Initial())
  {
    var vms := InitialVms();
    assert forall i :: 0 <= i < |vms| ==> vms[i].hostId in HostIds by {
      assert HostIds == ["h1", "h2", "h3"];
    }
  }

  /** A reset, from any state, lands in a state that satisfies the invariant. */
  lemma ResetKeepsValid(s: Sim)
    ensures Valid(AfterReset(s))
  {
    ResetListsAreInitial();
    InitialValid();
  }

  lemma {:induction false} StepsKeepValid(s: Sim, k: nat)
    requires Valid(s)
    ensures Valid(Steps(s, k))
    ensures |Steps(s, k).vms| == 12 && |Steps(s, k).hosts| == 3
  {
    if k > 0 {
      StepsKeepValid(s, k - 1);
      StepKeepsValid(Steps(s, k - 1));
    }
  }

  // ---------------------------------------------------------------- the chain

  /** One elapsed dwell moves a walk in progress exactly one phase along the chain and
      leaves any other state alone. */
  lemma StepAdvancesOne(s: Sim)
    requires Coherent(s)
    ensures s.running ==> Index(AfterStep(s).phase) == Index(s.phase) + 1
    ensures !s.running ==> AfterStep(s) == s
    ensures AfterStep(s).running <==> s.running && Index(s.phase) + 1 < 6
  {
  }

  /** From a running state, `k` dwells visit the phases that follow in the chain,
      one per dwell, and stop in `Optimized`. */
  lemma {:induction false} StepsWalkChain(s: Sim, k: nat)
    requires Coherent(s) && s.running
    ensures Index(Steps(s, k).phase) == Min(Index(s.phase) + k, 6)
    ensures Steps(s, k).running <==> Index(s.phase) + k < 6
  {
    if k > 0 {
      StepsWalkChain(s, k - 1);
      var a := Steps(s, k - 1);
      assert Coherent(a) by {
        if a.running {
          assert Index(a.phase) < 6;
        }
      }
      StepAdvancesOne(a);
    }
  }

  /** After `start` from an idle state, `k` dwells put the sequence in the `k`-th phase
      of the chain (BALANCED, LOAD_SPIKE, ..., OPTIMIZED), with no skip and no repeat;
      from the sixth dwell on, nothing changes any more. */
  lemma RunVisitsChain(base: Sim, k: nat)
    requires Idle(base)
    ensures Index(Run(base, k).phase) == Min(k, 6)
    ensures Run(base, k).running <==> k < 6
    ensures k >= 6 ==> Run(base, k + 1) == Run(base, k)
  {
    StepsWalkChain(AfterStart(base), k);
  }

  /** `start` is ignored unless the sequence is idle in `Balanced`: a second trigger never
      restarts or doubles the walk. */
  lemma StartOnlyWhenIdle(s: Sim)
    ensures !Idle(s) ==> AfterStart(s) == s
    ensures Idle(s) ==> AfterStart(s).running && AfterStart(s).phase == Balanced
                        && AfterStart(s).hosts == s.hosts && AfterStart(s).vms == s.vms
                        && AfterStart(s).status == s.status
                        && AfterStart(s).logs == [Monitoring, StartBanner] + s.logs
  {
  }

  // ---------------------------------------------------------------- the patches

  /** LOAD_SPIKE: host h2 jumps to 92% CPU / 95% memory; h1, h3 and every VM are untouched. */
  lemma LoadSpikePatch(s: Sim)
    requires Valid(s)
    ensures var t := Enter(s, LoadSpike);
            SameHosts(t.hosts, s.hosts) && t.vms == s.vms &&
            t.hosts[1].cpuUsage == 92 && t.hosts[1].memUsage == 95 &&
            t.hosts[0] == s.hosts[0] && t.hosts[2] == s.hosts[2]
  {
    assert s.hosts[1].id == "h2" && s.hosts[0].id == "h1" && s.hosts[2].id == "h3";
  }

  /** CALCULATING, ANALYZING_PHASE_2 and OPTIMIZED only narrate: hosts and VMs stay as
      they are. */
  lemma NarrativePhasesKeepModel(s: Sim, p: Phase)
    requires p == Calculating || p == AnalyzingPhase2 || p == Optimized
    ensures Enter(s, p).hosts == s.hosts && Enter(s, p).vms == s.vms
    ensures |Enter(s, p).logs| > |s.logs|
  {
  }

  /** MIGRATING_PHASE_1: exactly vm5 (SQL-PROD) goes to h1 and vm7 (SAP-Core) to h3, and the
      hosts are set to 60/70, 40/45 and 75/80 with their identities kept. */
  lemma MigratingPhase1Patch(s: Sim)
    requires Valid(s)
    ensures var t := Enter(s, MigratingPhase1);
            SameVms(t.vms, s.vms) && SameHosts(t.hosts, s.hosts) &&
            (forall i :: 0 <= i < |s.vms| ==>
               t.vms[i].hostId == (if s.vms[i].id == "vm5" then "h1"
                                   else if s.vms[i].id == "vm7" then "h3"
                                   else s.vms[i].hostId)) &&
            t.hosts[0].cpuUsage == 60 && t.hosts[0].memUsage == 70 &&
            t.hosts[1].cpuUsage == 40 && t.hosts[1].memUsage == 45 &&
            t.hosts[2].cpuUsage == 75 && t.hosts[2].memUsage == 80
  {
    assert s.hosts[..3] == s.hosts;
    forall i | 0 <= i < |s.vms|
      ensures FinalHost(MovesOf(MigratingPhase1), s.vms[i].id, s.vms[i].hostId) ==
              if s.vms[i].id == "vm5" then "h1" else if s.vms[i].id == "vm7" then "h3" else s.vms[i].hostId
    {
      FinalHostOfTwo(Move("vm5", "h1"), Move("vm7", "h3"), s.vms[i].id, s.vms[i].hostId);
    }
  }

  /** MIGRATING_PHASE_2: exactly vm8, vm9 (App-01, App-02) and vm1 (Web-01) go to h2, and the
      hosts are set to 55/60, 58/62 and 55/58 with their identities kept. */
  lemma MigratingPhase2Patch(s: Sim)
    requires Valid(s)
    ensures var t := Enter(s, MigratingPhase2);
            SameVms(t.vms, s.vms) && SameHosts(t.hosts, s.hosts) &&
            (forall i :: 0 <= i < |s.vms| ==>
               t.vms[i].hostId == (if s.vms[i].id == "vm8" || s.vms[i].id == "vm9" || s.vms[i].id == "vm1"
                                   then "h2" else s.vms[i].hostId)) &&
            t.hosts[0].cpuUsage == 55 && t.hosts[0].memUsage == 60 &&
            t.hosts[1].cpuUsage == 58 && t.hosts[1].memUsage == 62 &&
            t.hosts[2].cpuUsage == 55 && t.hosts[2].memUsage == 58
  {
    assert s.hosts[..3] == s.hosts;
    forall i | 0 <= i < |s.vms|
      ensures FinalHost(MovesOf(MigratingPhase2), s.vms[i].id, s.vms[i].hostId) ==
              if s.vms[i].id == "vm8" || s.vms[i].id == "vm9" || s.vms[i].id == "vm1" then "h2" else s.vms[i].hostId
    {
      FinalHostOfThree(Move("vm8", "h2"), Move("vm9", "h2"), Move("vm1", "h2"), s.vms[i].id, s.vms[i].hostId);
      FinalHostOfTwo(Move("vm8", "h2"), Move("vm9", "h2"), s.vms[i].id, s.vms[i].hostId);
    }
  }

  // ---------------------------------------------------------------- the walk from an idle state

  /** Dwell `k + 1` of a walk started from an idle state applies the row of the phase
      after the `k`-th one to the state the walk is in. */
  lemma RunStep(base: Sim, k: nat)
    requires Idle(base) && k < 6
    ensures Run(base, k).running && Index(Run(base, k).phase) == k
    ensures Run(base, k + 1) == Enter(Run(base, k), Next(Run(base, k).phase))
  {
    RunVisitsChain(base, k);
  }

  /** Every state of a walk satisfies the invariant. */
  lemma RunValid(base: Sim, k: nat)
    requires Valid(base) && Idle(base)
    ensures Valid(Run(base, k))
  {
    StartKeepsValid(base);
    StepsKeepValid(AfterStart(base), k);
  }

  /** Scenario A: when the first dwell elapses on the initial hosts, h2 reaches 92/95 and
      is the only host drawn as high-load. (`Run(base, 0)` is such a state for an idle
      `base` holding the initial hosts.) */
  lemma AfterLoadSpikeOnlyH2High(s: Sim)
    requires Valid(s) && s.running && s.phase == Balanced && s.hosts == InitialHosts()
    ensures var t := AfterStep(s);
            t.phase == LoadSpike && |t.hosts| == 3 &&
            t.hosts[1].cpuUsage == 92 && t.hosts[1].memUsage == 95 &&
            forall i :: 0 <= i < 3 ==> (IsHighLoad(t.hosts[i]) <==> i == 1)
  {
    LoadSpikePatch(s);
  }

  /** Scenario A on the walk itself: `start` from the mount state meets the requirement of
      `AfterLoadSpikeOnlyH2High`, so after the first dwell h2 is the only high-load host. */
  lemma FreshWalkReachesSpike()
    ensures var s := Run(Initial(), 0);
            Valid(s) && s.running && s.phase == Balanced && s.hosts == InitialHosts()
    ensures var t := Run(Initial(), 1);
            t.phase == LoadSpike && |t.hosts| == 3 &&
            t.hosts[1].cpuUsage == 92 && t.hosts[1].memUsage == 95 &&
            forall i :: 0 <= i < 3 ==> (IsHighLoad(t.hosts[i]) <==> i == 1)
  {
    InitialValid();
    RunValid(Initial(), 0);
    AfterLoadSpikeOnlyH2High(Run(Initial(), 0));
  }

  /** Scenario B, hosts: when the dwell after CALCULATING elapses, h2's memory is down to
      45% and no host is drawn as high-load: h3 sits exactly on the threshold.
      (`Run(base, 2)` is such a state, by `RunStep` and `RunValid`.) */
  lemma AfterMigration1NoneHigh(s: Sim)
    requires Valid(s) && s.running && s.phase == Calculating
    ensures var t := AfterStep(s);
            t.phase == MigratingPhase1 && |t.hosts| == 3 &&
            t.hosts[1].memUsage == 45 && t.hosts[2].memUsage == 80 &&
            forall i :: 0 <= i < 3 ==> !IsHighLoad(t.hosts[i])
  {
    MigratingPhase1Patch(s);
  }

  /** Scenario B, VMs: the same dwell puts SQL-PROD on h1 and SAP-Core on h3. */
  lemma AfterMigration1Placement(s: Sim)
    requires Valid(s) && s.running && s.phase == Calculating
    ensures var t := AfterStep(s);
            |t.vms| == 12 &&
            t.vms[4].name == "SQL-PROD" && t.vms[4].hostId == "h1" &&
            t.vms[6].name == "SAP-Core" && t.vms[6].hostId == "h3"
  {
    MigratingPhase1Patch(s);
    MigratedVmsAt(s.vms);
  }

  /** Scenario C, hosts: when the dwell after ANALYZING_PHASE_2 elapses, every host's CPU
      and memory lie in the 55-65% band the OPTIMIZED message announces.
      (`Run(base, 4)` is such a state, by `RunStep` and `RunValid`.) */
  lemma AfterMigration2InBand(s: Sim)
    requires Valid(s) && s.running && s.phase == AnalyzingPhase2
    ensures var t := AfterStep(s);
            t.phase == MigratingPhase2 && |t.hosts| == 3 &&
            forall i :: 0 <= i < 3 ==>
              55 <= t.hosts[i].cpuUsage <= 65 && 55 <= t.hosts[i].memUsage <= 65
  {
    MigratingPhase2Patch(s);
  }

  /** Scenario C, VMs: the same dwell puts App-01, App-02 and Web-01 on h2. */
  lemma AfterMigration2Placement(s: Sim)
    requires Valid(s) && s.running && s.phase == AnalyzingPhase2
    ensures var t := AfterStep(s);
            |t.vms| == 12 &&
            t.vms[0].name == "Web-01" && t.vms[0].hostId == "h2" &&
            t.vms[7].name == "App-01" && t.vms[7].hostId == "h2" &&
            t.vms[8].name == "App-02" && t.vms[8].hostId == "h2"
  {
    MigratingPhase2Patch(s);
    MigratedVmsAt(s.vms);
  }

  /** Scenario D: the state that shows the OPTIMIZED message keeps the hosts and VMs of
      MIGRATING_PHASE_2, so every host's CPU and memory lie in the 55-65% band it claims. */
  lemma OptimizedInBand(base: Sim)
    requires Valid(base) && Idle(base)
    ensures var t := Run(base, 6);
            t.phase == Optimized && !t.running &&
            t.hosts == Run(base, 5).hosts && t.vms == Run(base, 5).vms &&
            |t.hosts| == 3 &&
            forall i :: 0 <= i < 3 ==>
              55 <= t.hosts[i].cpuUsage <= 65 && 55 <= t.hosts[i].memUsage <= 65
  {
    RunVisitsChain(base, 6);
    RunValid(base, 4);
    RunStep(base, 4);
    AfterMigration2InBand(Run(base, 4));
    RunStep(base, 5);
    NarrativePhasesKeepModel(Run(base, 5), Optimized);
  }

  /** During a walk the status panel shows the title and message of the phase the walk
      is in; before LOAD_SPIKE it still shows what it showed when `start` was triggered. */
  lemma {:induction false} RunStatus(base: Sim, k: nat)
    requires Idle(base) && k < 7
    ensures k == 0 ==> Run(base, k).status == base.status
    ensures 1 <= k ==> StatusOf(PhaseAt(k)).Some? && Run(base, k).status == StatusOf(PhaseAt(k)).value
  {
    if k > 0 {
      RunStep(base, k - 1);
      PhaseAtIndex(Next(Run(base, k - 1).phase));
    }
  }

  // ---------------------------------------------------------------- the log

  /** The entries one elapsed dwell adds in front of the log, newest first. */
  function StepEntries(s: Sim): seq<Line>
  {
    if s.running && s.phase != Optimized then Reversed(LinesOf(Next(s.phase))) else []
  }

  lemma StepPrepends(s: Sim)
    ensures AfterStep(s).logs == StepEntries(s) + s.logs
  {
  }

  /** The entries a walk started from an idle state has written once it has entered the
      `k`-th phase of the chain, newest first. */
  function Journal(k: nat): seq<Line>
    requires k < 7
  {
    if k == 0 then Reversed(LinesOf(Balanced))
    else Reversed(LinesOf(PhaseAt(k))) + Journal(k - 1)
  }

  /** During a walk the log is the walk's own entries in front of whatever the log held
      when `start` was triggered. */
  lemma {:induction false} RunJournal(base: Sim, k: nat)
    requires Idle(base) && k < 7
    ensures Run(base, k).logs == Journal(k) + base.logs
  {
    if k > 0 {
      RunJournal(base, k - 1);
      RunStep(base, k - 1);
      PhaseAtIndex(Next(Run(base, k - 1).phase));
      assert Run(base, k).logs == Reversed(LinesOf(PhaseAt(k))) + (Journal(k - 1) + base.logs);
    }
  }

  /** The entries of a full walk, from the end banner (newest) back to the start banner. */
  lemma FullJournal()
    ensures Journal(6) ==
            [EndBanner, DeviationLow,
             Web01Migrated, App02Migrated, App01Migrated,
             PlanSmallLoads, Host2HasRoom, Host1Improvable, Host3TooLoaded, SecondPass,
             Host3Overloaded, EmergencyDone,
             PlanB, PlanA, PlanningEvacuation,
             SevereImbalance, CriticalAlarm,
             Monitoring, StartBanner]
  {
  }

  /** A full walk writes those 19 entries in front of the log it started with. */
  lemma FullRunLog(base: Sim)
    requires Idle(base)
    ensures |Run(base, 6).logs| == |base.logs| + 19
    ensures Run(base, 6).logs[0] == EndBanner && Run(base, 6).logs[18] == StartBanner
    ensures Run(base, 6).logs[19..] == base.logs
  {
    RunJournal(base, 6);
    FullJournal();
  }

  // ---------------------------------------------------------------- reset

  /** A reset from any state gives BALANCED, an idle sequencer, an empty log and the
      initial hosts and VMs; only the status message differs from the initial one. */
  lemma ResetRestores(s: Sim)
    ensures var t := AfterReset(s);
            t.phase == Balanced && !t.running && t.logs == [] &&
            t.hosts == InitialHosts() && t.vms == InitialVms() &&
            t == Initial().(status := ResetStatus) &&
            Title(t.status) == Title(StartupStatus) && Message(t.status) != Message(StartupStatus)
  {
    ResetListsAreInitial();
  }

  /** After a reset no pending dwell can change anything: stale steps are inert. */
  lemma {:induction false} NoStaleStepAfterReset(s: Sim, k: nat)
    ensures Steps(AfterReset(s), k) == AfterReset(s)
  {
    if k > 0 {
      NoStaleStepAfterReset(s, k - 1);
    }
  }

  /** Starting again after a reset replays the same walk as the first run: from LOAD_SPIKE on
      the two are identical, and before that they differ only in the status message. */
  lemma {:induction false} RunAfterResetReplays(s: Sim, k: nat)
    ensures Run(AfterReset(s), k).(status := ResetStatus) == Run(Initial(), k).(status := ResetStatus)
    ensures k >= 1 ==> Run(AfterReset(s), k) == Run(Initial(), k)
  {
    ResetListsAreInitial();
    if k > 0 {
      RunAfterResetReplays(s, k - 1);
    }
  }

  /** The reset button appears only once the walk has finished, so within the component's
      own UI a reset never races a pending dwell. */
  lemma ResetShownOnlyWhenDone(base: Sim, k: nat)
    requires Idle(base)
    ensures ResetVisible(Run(base, k).phase) <==> k >= 6
    ensures ResetVisible(Run(base, k).phase) ==> !Run(base, k).running
  {
    RunVisitsChain(base, k);
  }

  // ---------------------------------------------------------------- indicators

  /** The "BALANCEANDO..." badge shows exactly in the two migration phases and the
      second analysis. */
  lemma BalancingPhases(p: Phase)
    ensures IsBalancing(p) <==> p == MigratingPhase1 || p == AnalyzingPhase2 || p == MigratingPhase2
  {
    match p
    case Balanced =>
      assert !ContainsFrom("BALANCED", "MIGRATING", 0) && !ContainsFrom("BALANCED", "ANALYZING", 0);
    case LoadSpike =>
      assert !ContainsFrom("LOAD_SPIKE", "MIGRATING", 0) && !ContainsFrom("LOAD_SPIKE", "ANALYZING", 0);
    case Calculating =>
      assert !ContainsFrom("CALCULATING", "MIGRATING", 0) && !ContainsFrom("CALCULATING", "ANALYZING", 0);
    case MigratingPhase1 =>
      assert MatchesAt("MIGRATING_PHASE_1", "MIGRATING", 0, 0);
    case AnalyzingPhase2 =>
      assert MatchesAt("ANALYZING_PHASE_2", "ANALYZING", 0, 0);
    case MigratingPhase2 =>
      assert MatchesAt("MIGRATING_PHASE_2", "MIGRATING", 0, 0);
    case Optimized =>
      assert !ContainsFrom("OPTIMIZED", "MIGRATING", 0) && !ContainsFrom("OPTIMIZED", "ANALYZING", 0);
  }
}

=== FILE: sequencer.dfy ===
/** The DRS phase sequencer as values: the seven phases, the table that says what each
    phase writes, and the pure effect of `start`, of one elapsed dwell and of `reset`
    (src/App.tsx:9-16, 40-45, 82-85, 97-223). */
module Sequencer {
  import opened Cluster

  datatype Option<T> = None | Some(value: T)

  /** The `DRSState` values, in the only order the sequence visits them. */
  datatype Phase = Balanced | LoadSpike | Calculating | MigratingPhase1 | AnalyzingPhase2 | MigratingPhase2 | Optimized

  /** Position of a phase in the chain. */
  function Index(p: Phase): (n: nat)
    ensures n < 7
    ensures n == 0 <==> p == Balanced
    ensures n == 6 <==> p == Optimized
  {
    match p
    case Balanced => 0
    case LoadSpike => 1
    case Calculating => 2
    case MigratingPhase1 => 3
    case AnalyzingPhase2 => 4
    case MigratingPhase2 => 5
    case Optimized => 6
  }

  /** The phase at a position of the chain. */
  function PhaseAt(n: nat): (p: Phase)
    requires n < 7
    ensures Index(p) == n
  {
    [Balanced, LoadSpike, Calculating, MigratingPhase1, AnalyzingPhase2, MigratingPhase2, Optimized][n]
  }

  /** A phase is determined by its position. */
  lemma PhaseAtIndex(p: Phase)
    ensures PhaseAt(Index(p)) == p
  {
  }

  /** The successor of a phase in the chain; `Optimized` has none. */
  function Next(p: Phase): (q: Phase)
    requires p != Optimized
    ensures Index(q) == Index(p) + 1
  {
    match p
    case Balanced => LoadSpike
    case LoadSpike => Calculating
    case Calculating => MigratingPhase1
    case MigratingPhase1 => AnalyzingPhase2
    case AnalyzingPhase2 => MigratingPhase2
    case MigratingPhase2 => Optimized
  }

  /** The `DRSState` string of a phase. */
  function Name(p: Phase): string
  {
    match p
    case Balanced => "BALANCED"
    case LoadSpike => "LOAD_SPIKE"
    case Calculating => "CALCULATING"
    case MigratingPhase1 => "MIGRATING_PHASE_1"
    case AnalyzingPhase2 => "ANALYZING_PHASE_2"
    case MigratingPhase2 => "MIGRATING_PHASE_2"
    case Optimized => "OPTIMIZED"
  }

  /** The status panel's title/message pairs, one per text the component can show. */
  datatype Status =
    | StartupStatus       // "Cluster Equilibrado", as mounted
    | ResetStatus         // "Cluster Equilibrado", as a reset writes it
    | AlertStatus
    | Planning1Status
    | Migrating1Status
    | Planning2Status
    | Migrating2Status
    | OptimizedStatus

  function Title(st: Status): string
  {
    match st
    case StartupStatus => "Cluster Equilibrado"
    case ResetStatus => "Cluster Equilibrado"
    case AlertStatus => "¡ALERTA DE RENDIMIENTO!"
    case Planning1Status => "DRS Calculando (Fase 1: Emergencia)"
    case Migrating1Status => "Ejecutando vMotion (Fase 1)"
    case Planning2Status => "DRS Re-calculando (Fase 2: Optimización)"
    case Migrating2Status => "Ejecutando vMotion (Fase 2)"
    case OptimizedStatus => "Clúster Totalmente Optimizado"
  }

  function Message(st: Status): string
  {
    match st
    case StartupStatus => "El cluster opera dentro de los umbrales normales de desviación."
    case ResetStatus => "El cluster opera dentro de los umbrales normales."
    case AlertStatus =>
      "Host ESXi-02 está saturado (>90%). Las bases de datos SQL y SAP consumen todos los recursos."
    case Planning1Status =>
      "Prioridad: Reducir carga del Host 2 inmediatamente moviendo las VMs más grandes."
    case Migrating1Status => "Moviendo bases de datos grandes para liberar el Host 2."
    case Planning2Status =>
      "El DRS detecta que el Host 3 quedó muy lleno (80%) y el Host 2 muy vacío (45%). Se requiere un rebalanceo fino."
    case Migrating2Status =>
      "Distribuyendo VMs ligeras (App-01, App-02, Web-01) hacia el Host 2 para nivelar todo al 50-60%."
    case OptimizedStatus =>
      "Objetivo alcanzado: Todos los hosts operan entre el 55% y 65% de capacidad. Rendimiento garantizado."
  }

  /** The narrative lines the sequence writes to the log; `Text` gives each one's wording. */
  datatype Line =
    | StartBanner | Monitoring
    | CriticalAlarm | SevereImbalance
    | PlanningEvacuation | PlanA | PlanB
    | EmergencyDone | Host3Overloaded
    | SecondPass | Host3TooLoaded | Host1Improvable | Host2HasRoom | PlanSmallLoads
    | App01Migrated | App02Migrated | Web01Migrated
    | DeviationLow | EndBanner

  function Text(l: Line): string
  {
    match l
    case StartBanner => "--- INICIO DE SIMULACIÓN DRS ---"
    case Monitoring => "Monitor: Analizando métricas de rendimiento..."
    case CriticalAlarm => "Alarma Crítica: Host ESXi-02 Memoria al 95%."
    case SevereImbalance => "DRS: Desbalance severo detectado. Puntuación de clúster: Crítica."
    case PlanningEvacuation => "DRS: Planificando evacuación de cargas pesadas..."
    case PlanA => "Plan A: Mover 'SQL-PROD' -> ESXi-01."
    case PlanB => "Plan B: Mover 'SAP-Core' -> ESXi-03."
    case EmergencyDone => "vMotion: Migraciones de emergencia completadas."
    case Host3Overloaded => "Estado: Host 2 liberado, pero Host 3 ahora está sobrecargado (80%)."
    case SecondPass => "DRS: Ejecutando segunda pasada de optimización..."
    case Host3TooLoaded => "Análisis: Host 3 (80%) tiene demasiada carga."
    case Host1Improvable => "Análisis: Host 1 (70%) podría optimizarse."
    case Host2HasRoom => "Destino: Host 2 (45%) tiene capacidad disponible."
    case PlanSmallLoads => "Plan: Migrar cargas pequeñas (Web/App) hacia Host 2."
    case App01Migrated => "vMotion: 'App-01' migrada a ESXi-02."
    case App02Migrated => "vMotion: 'App-02' migrada a ESXi-02."
    case Web01Migrated => "vMotion: 'Web-01' migrada a ESXi-02."
    case DeviationLow => "DRS: Desviación de carga < 5%. Estado Saludable."
    case EndBanner => "--- FIN DE BALANCEO AUTOMÁTICO ---"
  }

  /** The log as the view shows it (without the timestamps). */
  function Rendered(logs: seq<Line>): (r: seq<string>)
    ensures |r| == |logs|
    ensures forall i :: 0 <= i < |logs| ==> r[i] == Text(logs[i])
  {
    if logs == [] then [] else [Text(logs[0])] + Rendered(logs[1..])
  }

  /** What a phase does to the host list. */
  datatype HostPatch =
    | KeepHosts
    | SetById(id: string, usage: Usage)      // one host rewritten through `prev.map`
    | Positional(targets: seq<Usage>)        // the list rebuilt from `prev[0]`, `prev[1]`, `prev[2]`

  /** One row of the sequence: the wait before it applies, its patches, the status it
      shows (if it writes one) and the log lines it adds, in the order they are added. */
  datatype PhaseScript = PhaseScript(dwellMs: nat, hosts: HostPatch, moves: seq<Move>,
                                     status: Option<Status>, lines: seq<Line>)

  /** The fixed table of the sequence, one row per phase. The `Balanced` row is what
      `start` applies (the model folds the trigger's delay into it); each other row is
      applied when its dwell has elapsed. */
  function Script(p: Phase): PhaseScript
  {
    PhaseScript(DwellOf(p), HostPatchOf(p), MovesOf(p), StatusOf(p), LinesOf(p))
  }

  /** Milliseconds waited before the phase's row applies (for `Balanced`, the delay between
      the trigger and the first log lines). */
  function DwellOf(p: Phase): nat
  {
    match p
    case Balanced => 1500
    case LoadSpike => 4000
    case Calculating => 7000
    case MigratingPhase1 => 7000
    case AnalyzingPhase2 => 8000
    case MigratingPhase2 => 8000
    case Optimized => 8000
  }

  function HostPatchOf(p: Phase): HostPatch
  {
    match p
    case LoadSpike => SetById("h2", Usage(92, 95))
    case MigratingPhase1 => Positional([Usage(60, 70), Usage(40, 45), Usage(75, 80)])
    case MigratingPhase2 => Positional([Usage(55, 60), Usage(58, 62), Usage(55, 58)])
    case _ => KeepHosts
  }

  function MovesOf(p: Phase): seq<Move>
  {
    match p
    case MigratingPhase1 => [Move("vm5", "h1"), Move("vm7", "h3")]
    case MigratingPhase2 => [Move("vm8", "h2"), Move("vm9", "h2"), Move("vm1", "h2")]
    case _ => []
  }

  function StatusOf(p: Phase): Option<Status>
  {
    match p
    case Balanced => None
    case LoadSpike => Some(AlertStatus)
    case Calculating => Some(Planning1Status)
    case MigratingPhase1 => Some(Migrating1Status)
    case AnalyzingPhase2 => Some(Planning2Status)
    case MigratingPhase2 => Some(Migrating2Status)
    case Optimized => Some(OptimizedStatus)
  }

  function LinesOf(p: Phase): seq<Line>
  {
    match p
    case Balanced => [StartBanner, Monitoring]
    case LoadSpike => [CriticalAlarm, SevereImbalance]
    case Calculating => [PlanningEvacuation, PlanA, PlanB]
    case MigratingPhase1 => [EmergencyDone, Host3Overloaded]
    case AnalyzingPhase2 => [SecondPass, Host3TooLoaded, Host1Improvable, Host2HasRoom, PlanSmallLoads]
    case MigratingPhase2 => [App01Migrated, App02Migrated, Web01Migrated]
    case Optimized => [DeviationLow, EndBanner]
  }

  /** The whole observable state of the component's core. `running` is true while the
      asynchronous walk is between `start` and `Optimized`. */
  datatype Sim = Sim(phase: Phase, running: bool, hosts: seq<Host>, vms: seq<Vm>,
                     logs: seq<Line>, status: Status)

  /** The state the component is created in. */
  function Initial(): Sim
  {
    Sim(Balanced, false, InitialHosts(), InitialVms(), [], StartupStatus)
  }

  /** The sequencer's invariant: a well-formed resource model, and a walk in progress
      never sits in the terminal phase. */
  predicate Valid(s: Sim)
  {
    ValidHosts(s.hosts) && ValidVms(s.vms) && Coherent(s)
  }

  /** A walk in progress never sits in the terminal phase. */
  predicate Coherent(s: Sim)
  {
    s.running ==> s.phase != Optimized
  }

  function Reversed<T>(s: seq<T>): (r: seq<T>)
    ensures |r| == |s|
    ensures forall i :: 0 <= i < |s| ==> r[i] == s[|s| - 1 - i]
  {
    if s == [] then [] else [s[|s| - 1]] + Reversed(s[..|s| - 1])
  }

  /** `addLog`: the new entry goes in front, newest first. */
  function Prepended(logs: seq<Line>, msg: Line): (r: seq<Line>)
    ensures |r| == |logs| + 1
    ensures r[0] == msg && r[1..] == logs
  {
    [msg] + logs
  }

  /** `addLog` called once per line, in order: the last line ends up in front. */
  function PrependedAll(logs: seq<Line>, lines: seq<Line>): (r: seq<Line>)
    ensures r == Reversed(lines) + logs
  {
    if lines == [] then logs
    else Prepended(PrependedAll(logs, lines[..|lines| - 1]), lines[|lines| - 1])
  }

  function ApplyHostPatch(hosts: seq<Host>, patch: HostPatch): seq<Host>
  {
    match patch
    case KeepHosts => hosts
    case SetById(id, u) => SetUsageById(hosts, id, u)
    case Positional(targets) => if |targets| <= |hosts| then RebuildByPosition(hosts, targets) else hosts
  }

  /** Apply one row of the table atomically: phase, status, VMs, hosts and log lines. */
  function Enter(s: Sim, p: Phase): Sim
  {
    var row := Script(p);
    Sim(p, p != Optimized,
        ApplyHostPatch(s.hosts, row.hosts),
        ApplyMoves(s.vms, row.moves),
        Reversed(row.lines) + s.logs,
        if row.status.Some? then row.status.value else s.status)
  }

  /** `start`: begins the walk from an idle `Balanced` state; anywhere else it does nothing. */
  function AfterStart(s: Sim): Sim
  {
    if s.phase == Balanced && !s.running then Enter(s, Balanced) else s
  }

  /** One dwell elapses: a walk in progress enters the next phase; otherwise nothing happens. */
  function AfterStep(s: Sim): Sim
  {
    if s.running && s.phase != Optimized then Enter(s, Next(s.phase)) else s
  }

  /** `resetSimulation`: the initial model, an empty log and the reset status, from anywhere. */
  function AfterReset(s: Sim): Sim
  {
    Sim(Balanced, false, ResetHosts(), ResetVms(), [], ResetStatus)
  }

  /** `k` dwells elapsed from `s`. */
  function Steps(s: Sim, k: nat): Sim
  {
    if k == 0 then s else AfterStep(Steps(s, k - 1))
  }

  /** The state `k` dwells after `start` from `base`. */
  function Run(base: Sim, k: nat): Sim
  {
    Steps(AfterStart(base), k)
  }

  /** The reset button, shown only once the walk has finished. */
  predicate ResetVisible(p: Phase)
  {
    p == Optimized
  }

  /** `t` occurs in `s` at position `at`, compared from character `j` on. */
  function MatchesAt(s: string, t: string, at: nat, j: nat): bool
    requires at + |t| <= |s|
    decreases |t| - j
  {
    j >= |t| || (s[at + j] == t[j] && MatchesAt(s, t, at, j + 1))
  }

  /** `s.includes(t)`, looking at positions `from` and later. */
  function ContainsFrom(s: string, t: string, from: nat): bool
    decreases |s| - from
  {
    if from + |t| > |s| then false
    else MatchesAt(s, t, from, 0) || ContainsFrom(s, t, from + 1)
  }

  /** The "BALANCEANDO..." badge: the phase name mentions MIGRATING or ANALYZING. */
  predicate IsBalancing(p: Phase)
  {
    ContainsFrom(Name(p), "MIGRATING", 0) || ContainsFrom(Name(p), "ANALYZING", 0)
  }
}

=== FILE: simulation.dfy ===
/** The `DRSSimulation` component's core as an object: the state it keeps (drsState, hosts,
    vms, logs, status title and message) and the three commands that overwrite it step by
    step: `start`, one elapsed dwell of the asynchronous walk, and `resetSimulation`. */
module Simulation {
  import opened Cluster
  import opened Sequencer
  import SequencerFacts

  class DrsSimulation {
    var phase: Phase
    /** True between `start` and the arrival in OPTIMIZED: a dwell is pending. */
    var running: bool
    var hosts: seq<Host>
    var vms: seq<Vm>
    /** Newest entry first. */
    var logs: seq<Line>
    /** Which title and message the status panel shows. */
    var status: Status

    /** The object's state as a value of the sequencer model. */
    function Snapshot(): Sim
      reads this
    {
      Sim(phase, running, hosts, vms, logs, status)
    }

    ghost predicate Valid()
      reads this
    {
      Sequencer.Valid(Snapshot())
    }

    /** The state the component is mounted with. */
    constructor ()
      ensures Snapshot() == Initial()
      ensures Valid()
    {
      phase := Balanced;
      running := false;
      hosts := InitialHosts();
      vms := InitialVms();
      logs := [];
      status := StartupStatus;
      new;
      SequencerFacts.InitialValid();
    }

    /** `addLog`: put one entry in front of the log. */
    method AddLog(msg: Line)
      modifies this`logs
      ensures logs == Prepended(old(logs), msg)
    {
      logs := [msg] + logs;
    }

    /** `addLog` once per line, in order. */
    method AddLogs(lines: seq<Line>)
      modifies this`logs
      ensures logs == PrependedAll(old(logs), lines)
    {
      var i := 0;
      assert lines[..0] == [];
      while i < |lines|
        invariant 0 <= i <= |lines|
        invariant logs == PrependedAll(old(logs), lines[..i])
      {
        assert lines[..i + 1][..i] == lines[..i];
        AddLog(lines[i]);
        i := i + 1;
      }
      assert lines[..|lines|] == lines;
    }

    /** The `setVms(prev => prev.map(...))` calls of a phase, one vMotion after the other. */
    method Migrate(moves: seq<Move>)
      modifies this`vms
      ensures vms == ApplyMoves(old(vms), moves)
    {
      var j := 0;
      while j < |moves|
        invariant 0 <= j <= |moves|
        invariant vms == ApplyMoves(old(vms), moves[..j])
      {
        assert moves[..j + 1][..j] == moves[..j];
        vms := MoveVm(vms, moves[j]);
        j := j + 1;
      }
      assert moves[..|moves|] == moves;
    }

    /** `setDrsState` and, when the phase has one, `setStatus`. */
    method Announce(p: Phase)
      modifies this`phase, this`running, this`status
      ensures phase == p && running == (p != Optimized)
      ensures status == Enter(old(Snapshot()), p).status
    {
      phase := p;
      running := p != Optimized;
      match StatusOf(p) {
        case Some(st) => status := st;
        case None =>
      }
    }

    /** Apply one row of the phase table: the phase name, the status text, the vMotions,
        the host usages, then the log lines. */
    method Apply(p: Phase)
      modifies this
      ensures Snapshot() == Enter(old(Snapshot()), p)
    {
      Announce(p);
      Migrate(MovesOf(p));
      hosts := ApplyHostPatch(hosts, HostPatchOf(p));
      ghost var older := logs;
      var lines := LinesOf(p);
      AddLogs(lines);
      assert logs == Reversed(lines) + older;
    }

    /** `triggerLoadSpike` / the start of `runDRSSequence`: from an idle BALANCED state, log
        the two opening lines and begin the walk; in any other state, do nothing. */
    method Start()
      requires Valid()
      modifies this
      ensures Snapshot() == AfterStart(old(Snapshot()))
      ensures Valid()
    {
      if phase == Balanced && !running {
        Apply(Balanced);
      }
      SequencerFacts.StartKeepsValid(old(Snapshot()));
    }

    /** One dwell of the walk elapses: enter the next phase of the chain and apply its row.
        Nothing happens when no walk is in progress. */
    method Step()
      requires Valid()
      modifies this
      ensures Snapshot() == AfterStep(old(Snapshot()))
      ensures Valid()
    {
      if running && phase != Optimized {
        Apply(Next(phase));
      }
      SequencerFacts.StepKeepsValid(old(Snapshot()));
    }

    /** `resetSimulation`: back to BALANCED with the initial hosts and VMs, an empty log and
        the reset status text; any pending dwell is dropped. */
    method Reset()
      modifies this
      ensures Snapshot() == AfterReset(old(Snapshot()))
      ensures Valid()
    {
      phase := Balanced;
      running := false;
      logs := [];
      status := ResetStatus;
      hosts := ResetHosts();
      vms := ResetVms();
      SequencerFacts.ResetKeepsValid(old(Snapshot()));
    }
  }

  /** A whole session: mount, start, six dwells, reset. `finished` is the object's state
      when the walk is over and `restored` its state after the reset. */
  method Session() returns (finished: Sim, restored: Sim)
    ensures finished == Run(Initial(), 6)
    ensures finished.phase == Optimized && !finished.running
    ensures restored.logs == [] && restored.hosts == InitialHosts() && restored.vms == InitialVms()
  {
    var sim := new DrsSimulation();
    sim.Start();
    sim.Step(); sim.Step(); sim.Step(); sim.Step(); sim.Step(); sim.Step();
    finished := sim.Snapshot();
    sim.Reset();
    restored := sim.Snapshot();
    ResetListsAreInitial();
  }
}
